=== FILE: README.md ===
# Blink REST client core, modelled in Dafny

This project models the core of the `shraklor.blink` client for the Blink
home-security cloud API (`shraklor/blink/_blink.py`):

- **Resource decoding** (`BlinkNetwork.load`, `BlinkFactory.load_devices`,
  `BlinkFactory.load_sync_modules` and the record classes). A decoded JSON
  payload becomes a list of records. Each record class subclasses `dict` and
  copies a fixed list of payload keys, some renamed (`device_id` becomes `id`,
  `type` becomes `model`, `created_at` becomes `created_on`). Devices are
  classified by their `device_type` and `type` discriminators into XT
  cameras, white cameras and sync modules. Unknown combinations raise
  `BlinkUnknownDevice`.
- **Sliding-window rate check** (`BlinkRestApiX._check_rate_limits`). The
  current call time is recorded first. Times at or before `now - 60` are then
  evicted. The check raises when more than `max` (default 10) remain, and a
  rejected call stays recorded.
- **Token renewal** (`BlinkAuthService._renew`, `token()`, `region`). The
  service logs in only when there is no token or fewer than 10 seconds
  remain. A successful login stores the token, an expiry of `now + 300` and
  the region. A login response carrying `message` raises and changes nothing.
- **Header and region derivation** (`BlinkRestApi._get_header`, `_region`).
  The header is a copy of the stored header plus `TOKEN_AUTH` and `HOST`. The
  region key is the first key of the login response's region mapping.

Layout, one module per file:

- `json.dfy` (`Json`): decoded JSON values. Objects are ordered key/value
  sequences, as Python dicts are ordered. The file also holds the Python
  built-ins the client applies to those values: truthiness, `in`,
  subscription, iteration and `dict.update`. Finally it holds the exceptions
  raised and a `Result` type for them.
- `records.dfy` (`Records`): the record classes as renaming tables, and the
  construction of a record dict from a payload.
- `factory.dfy` (`Factory`): the three loaders and the device dispatch.
- `ratelimit.dfy` (`RateLimit`): the rate check.
- `auth.dfy` (`Auth`): the authentication service and its renewal.
- `restapi.dfy` (`RestApi`): client construction, header and region key.

The clock and the network are parameters. `now` is an integer number of
seconds. `response` is the decoded body that the login request would
receive; it is consulted only if a login actually happens.

Behaviour of the code worth knowing:

- An element of `devices` without `device_type` is skipped silently.
- `BlinkNetwork.load` reads only the key `networks`.
- The `HOST` header is always `prod.immedia-semi.com` (`BlinkUrls.fqdn`),
  whatever the region.
- `BlinkRestApi._call` never runs the rate check. The rate window of
  `RestApi.RestApi` is set up at construction and never read by the modelled
  operations. The rate check exists only on `BlinkRestApiX`, and it is modelled
  on its own.
- The code is single-threaded. One renewal logs in at most once, and no
  renewal logs in again while the stored token is fresh.

## Model

| member | source | states |
|---|---|---|
| `Records.Rename` | shraklor/blink/_blink.py:147-156 | A record reads its payload keys in keyword order. It succeeds iff every key is present. Each record key then holds the value of its payload key. Otherwise it raises the error of the first missing key: KeyError for a dict, TypeError for any other value. |
| `Records.NetworkFrom` | shraklor/blink/_blink.py:144-156 | `BlinkNetwork(data)` succeeds iff the payload has all ten keys. Its dict has the record keys in order. `created_on` holds `created_at`, `origin` holds `network_origin`, `ping` holds `ping_interval`, `timez` holds `time_zone` and `last_update_on` holds `updated_at`. The other keys are copied unchanged. |
| `Records.CameraFrom` | shraklor/blink/_blink.py:185-226 | The XT and white camera classes read the same fourteen keys and build the same renamed dict. They fail iff a key is missing, at the first missing key. |
| `Records.CameraRenames` | shraklor/blink/_blink.py:191-204 | In a camera record, `state` holds `active`, `model` holds `type`, `id` holds `device_id`, `temperature` holds `temp` and `last_update_on` holds `updated_at`. |
| `Records.CameraMissingActive` | shraklor/blink/_blink.py:191 | A camera payload without `active` fails at that first read. A dict gives KeyError("active"); any other value gives TypeError. |
| `Records.DeviceSyncModuleFrom` | shraklor/blink/_blink.py:232-242 | The device-list sync module record succeeds iff its eight keys are present. `id` holds `device_id`. |
| `Records.SyncModuleFrom` | shraklor/blink/_blink.py:249-265 | `BlinkSyncModule(data)` succeeds iff its fourteen keys are present. `firmware` holds `fw_version` and `created_on` holds `created_at`. |
| `Factory.MapAll` | shraklor/blink/_blink.py:172-173 | The append loop returns one result per element, in order, iff every element succeeds. Otherwise it raises what the first failing element raises. |
| `Factory.Classify` | shraklor/blink/_blink.py:304-318 | An element is skipped iff `'device_type' in element` is false. A camera becomes an XT record iff `type` is "xt", or a white record iff `type` is "white", given all camera keys. A "sync_module" becomes a device sync module record. A camera of another type raises UnknownDevice("camera", type). A camera without `type` raises KeyError("type"). Any other device type raises UnknownDevice(device_type, None). An XT or white camera, or a sync module, missing a key its class reads raises that class's error, the first missing key's KeyError. A string or list containing "device_type" raises TypeError, as does a value that is no container. Records are built only from dicts. |
| `Factory.DispatchExamples` | shraklor/blink/_blink.py:304-318 | A camera of type "foo" raises UnknownDevice("camera", "foo"). A "thermostat" raises UnknownDevice("thermostat", None). A dict without `device_type` is skipped. |
| `Factory.LoadDevices` | shraklor/blink/_blink.py:290-320 | It returns None for a falsy payload or a dict without `devices`. A returned list is never longer than what it iterated. |
| `Factory.LoadDevicesList` | shraklor/blink/_blink.py:303-320 | Over a `devices` list, loading succeeds iff every element classifies. The result then holds exactly the records of the classified elements. Otherwise loading raises the first failing element's error. |
| `Factory.LoadDevicesInOrder` | shraklor/blink/_blink.py:303-320 | The loaded records appear in list order. They are at strictly increasing positions, and every element that became a record is included. |
| `Factory.SomesInOrder` | shraklor/blink/_blink.py:303-316 | Dropping skipped elements keeps the order of the records and drops no record. |
| `Factory.SingleDevice` | shraklor/blink/_blink.py:296-320 | A one-device payload gives that device's record, an empty list if the device is skipped, or the device's error. |
| `Factory.LoadNetworks` | shraklor/blink/_blink.py:159-175 | `BlinkNetwork.load` returns None for a falsy payload or a dict without `networks`. Otherwise it returns one network per iterated element. |
| `Factory.LoadNetworksList` | shraklor/blink/_blink.py:172-175 | Over a `networks` list it returns exactly one network per element, in order. Each network is built from its element. Otherwise it raises the first failing element's error. |
| `Factory.LoadSyncModules` | shraklor/blink/_blink.py:272-288 | It returns None for a falsy payload or a dict without `devices`, whatever `syncmodule` holds. With `devices` but no `syncmodule` it raises KeyError("syncmodule"). A returned list has one module per element of `syncmodule`. |
| `Factory.LoadSyncModulesList` | shraklor/blink/_blink.py:285-288 | Given `devices`, over a `syncmodule` list it returns one sync module per element, in order. Otherwise it raises the first failing element's error. |
| `RateLimit.CheckRateLimits` | shraklor/blink/_blink.py:680-701 | Afterwards the window holds the surviving earlier calls in order, then `now`. A time remains iff it was recorded or is `now`, and it is after `now - 60`. The current call is recorded even when rejected. Each time keeps its multiplicity, so repeated calls in the same second all count. The check raises iff the count exceeds `max`, and it reports the count and `max`. |
| `RateLimit.CheckKeepsWindow` | shraklor/blink/_blink.py:689-694 | If the clock does not go back, the window stays sorted. It holds only times in `(now - 60, now]`. |
| `RateLimit.CheckWithinWindow` | shraklor/blink/_blink.py:694-701 | If no recorded call has left the window, nothing is evicted. The call is admitted iff fewer than `max` calls were recorded. |
| `RateLimit.RejectionPersists` | shraklor/blink/_blink.py:690-701 | A retry at the same instant after a rejection is rejected again, with one more call counted. |
| `RateLimit.After` | shraklor/blink/_blink.py:694 | The eviction keeps exactly the times after the cutoff, each with its multiplicity, and no other. |
| `RateLimit.AfterKeepsRepeats` | shraklor/blink/_blink.py:694 | Two calls in the same second inside the window are both kept. |
| `RateLimit.SlidingExample` | shraklor/blink/_blink.py:689-699 | With `max` 2, calls at `t`, `t+10` and `t+70` leave windows of 1, 2 and 1 calls. All three are admitted. |
| `Auth.SettingsAsWritten` | shraklor/blink/_blink.py:83-85 | As written, whatever the keywords, the settings equal those the corrected reading gives for no keywords: the default client, header and proxy. |
| `Auth.ClientOverrideIgnoredAsWritten` | shraklor/blink/_blink.py:83 | For every keyword set binding `client` to something other than the default, the corrected reading uses that value and the code as written uses the default. |
| `Auth.SettingsFrom` | shraklor/blink/_blink.py:83-85 | Corrected: each of `client`, `header` and `proxy` passed by keyword overrides its default. A missing keyword leaves the default. |
| `Auth.New` | shraklor/blink/_blink.py:72-89 | A new service has no token and no region. Its expiry is the construction time, and it keeps the credentials. As written, its settings are always the defaults, whatever the keywords. |
| `Auth.LoginBody` | shraklor/blink/_blink.py:99-102 | The login body carries `email`, `password` and `client_specifier`. |
| `Auth.Renew` | shraklor/blink/_blink.py:92-119 | Login happens iff the token is None or fewer than 10 s remain. The login sends the credentials. A fresh token is left alone. A response with `message` raises that message and changes nothing. Success happens iff the response has no `message`, has `authtoken.authtoken` and has `region`. On success the token, `expires = now + 300` and the region are replaced. The region never changes on error. The state changes only after a login with no `message` that delivered `authtoken.authtoken`: that token is stored with `expires = now + 300`. The only error that leaves the state changed is KeyError("region"). A set token is fresh after a non-raising call. |
| `Auth.RegionMissingKeepsNewToken` | shraklor/blink/_blink.py:117-119 | A login response with a token but no region stores the new token and expiry, keeps the old region, and raises KeyError("region"). |
| `Auth.NoSecondLogin` | shraklor/blink/_blink.py:96-98 | After a login that stored a token, no renewal in the next 290 s logs in or changes state. |
| `Auth.NearExpiryExample` | shraklor/blink/_blink.py:96-98 | A token with 5 s left is renewed. One with 20 s left is not. |
| `Auth.Token` | shraklor/blink/_blink.py:132-138 | `token()` runs the renewal first and returns the stored token, or the renewal's error. A non-None token it returns is fresh. |
| `Auth.Region` | shraklor/blink/_blink.py:122-129 | The `region` property runs the renewal first and returns the stored region. After a login, that is the response's `region`. |
| `RestApi.New` | shraklor/blink/_blink.py:337-362 | A truthy `client` keyword is passed on to the auth service, which ignores it, so the login client is always the default. A `header` keyword replaces the default header, and the rate window starts empty with a maximum of 10. |
| `RestApi.ClientKeywordNotSent` | shraklor/blink/_blink.py:83-102 | Whatever the keywords, the first login of a new client sends the given email and the default client specifier. |
| `RestApi.GetHeader` | shraklor/blink/_blink.py:381-391 | The stored header is never changed. The token is requested, with renewal, after the copy. The result holds `TOKEN_AUTH` = token and `HOST` = `prod.immedia-semi.com`. Every other key keeps the stored value, and the stored keys come first in order. A list header is copied and the token is requested: that call's error is raised if it fails, and AttributeError otherwise. Any other non-dict header raises AttributeError before the token is requested. |
| `RestApi.RegionKey` | shraklor/blink/_blink.py:393-400 | The renewal runs first, and a failing renewal's error is what is raised. The result is the region mapping's first key, and it is a key of the mapping. An empty mapping raises StopIteration and a non-dict raises AttributeError. |
| `RestApi.RegionKeyAfterLogin` | shraklor/blink/_blink.py:398-400 | After a renewing login, the region key is the first key of that login's `region` mapping. |

## Findings

| source | as written | input that shows it | evidently intended | confidence | as-written member | corrected member |
|---|---|---|---|---|---|---|
| shraklor/blink/_blink.py:83-85 | `getattr(kwargs, 'client', self._CLIENT)` reads an attribute of the keyword dict, so every default is taken. The same holds for `header` and `proxy`. | `BlinkRestApi(user, pw, client='my-client')` passes `client='my-client'` on, yet the login sends the default client specifier | `kwargs.get('client', self._CLIENT)`, and the same for `header` and `proxy` | high; not executed | `Auth.SettingsAsWritten`, `Auth.ClientOverrideIgnoredAsWritten` | `Auth.SettingsFrom` |

The constructors `Auth.New` and `RestApi.New` follow the code as written, so
their settings are always the defaults. `RestApi.ClientKeywordNotSent` shows the
effect on the login body. `Auth.SettingsFrom` is the corrected reading on its
own.

## Left out

- HTTP transport: `Http.call`, `Http.send` and `BlinkRestApi._call`. The login
  response is an input. The check for a missing response and `response.json()`
  are not modelled.
- The clock. `datetime.now()` becomes the integer parameter `now`, in whole
  seconds. `_renew` reads the clock twice, and the model uses one `now` for
  both readings.
- Logging and its configuration.
- RateLimit.CheckRateLimits: the source method calls the undefined `_LOGGER`
  before anything else. Its message also uses `EXCEPTION_EXCEED_MSG`, a local
  of another function, so as written it raises NameError. The model follows
  the evident logic and ignores the logging. The raised exception carries the
  count and the maximum instead of the formatted message.
- The rest of `BlinkRestApiX`, which references undefined names. Also
  `rate_limit_check`, whose condition `1 == 2` is never true, and the `Blink`,
  `BlinkCamera`, `HomeDevice` and `BlinkRegion` stubs and containers.
- The URL-building endpoint methods (`get_networks`, `get_homescreens`,
  `get_network`, `get_sync_modules`, `arm_network`). They only format strings
  around I/O and pass the response to the loaders modelled here.
- The `__main__` script, `setup.py` and `shraklor/blink/__init__.py`, which
  are packaging and re-exports only.
- JSON numbers are integers; floating point is not modelled. Python equality
  between numbers and booleans (`1 == True`) is not modelled. Only string
  equality matters to the discriminators.
- Duplicate keys in a JSON text are not modelled. `json.loads` keeps the last
  value at the first key's position. `Json.Lookup` takes the first binding,
  which agrees whenever keys are distinct, as they are in any dict.
- The message text of `BlinkUnknownDevice` is not modelled. The exception
  carries the two values it formats, with None as `Null`.
- Credentials are strings. Python would accept any value.

=== FILE: auth.dfy ===
/** `BlinkAuthService`: holds the credentials, the current token, its
    expiry and the region of the last login, and logs in again whenever the
    token is missing or about to expire. The clock and the login response
    are inputs: `now` is the current time in seconds, and `response` is the
    decoded body the login request would receive. */
module Auth {
  import opened Json

  /** `_CLIENT`: the default client specifier sent at login. */
  const CLIENT := "iPhone 9.2 | 2.2 | 222"
  /** `_TOKEN_EXPIRATION`: a new token is assumed valid for 5 minutes. */
  const TOKEN_EXPIRATION := 60 * 5
  /** `_TOKEN_NEAR_EXPIRATION`: renew when fewer seconds than this remain. */
  const TOKEN_NEAR_EXPIRATION := 10
  /** `BlinkUrls.domain` and `BlinkUrls.fqdn`. */
  const DOMAIN := "immedia-semi.com"
  const FQDN := "prod." + DOMAIN
  /** `_HEADER`: the default login header. */
  const HEADER: seq<(string, Value)> := [("Content-Type", Str("application/json")), ("Host", Str(FQDN))]

  /** The optional settings of the service. */
  datatype Settings = Settings(client: Value, header: Value, proxy: Value)

  /** The service state. `token` and `region` are `Null` until a login
      succeeds. */
  datatype AuthService = AuthService(
    email: string,
    password: string,
    settings: Settings,
    token: Value,
    expires: int,
    region: Value)

  /** `kwargs.get(name, default)`. */
  function KwargOr(kwargs: seq<(string, Value)>, name: string, default: Value): (v: Value)
    ensures HasKey(kwargs, name) ==> Some(v) == Lookup(kwargs, name)
    ensures !HasKey(kwargs, name) ==> v == default
  {
    match Lookup(kwargs, name)
    case Some(x) => x
    case None => default
  }

  /** The settings as `__init__` reads them: `getattr(kwargs, 'client', ...)`
      asks the keyword dict for an attribute, and a dict has no attribute
      `client`, `header` or `proxy`, so every default is taken: whatever the
      keywords, the settings are those of a service given none. */
  function SettingsAsWritten(kwargs: seq<(string, Value)>): (r: Settings)
    ensures r == SettingsFrom([])
  {
    Settings(Str(CLIENT), Object(HEADER), Null)
  }

  /** A client specifier passed by keyword is ignored as written: whenever
      the keywords bind `client` to anything but the default, the intended
      reading would use it and the code as written does not. */
  lemma ClientOverrideIgnoredAsWritten(kwargs: seq<(string, Value)>, c: Value)
    requires Lookup(kwargs, "client") == Some(c) && c != Str(CLIENT)
    ensures SettingsFrom(kwargs).client == c
    ensures SettingsAsWritten(kwargs).client == Str(CLIENT)
    ensures SettingsAsWritten(kwargs).client != SettingsFrom(kwargs).client
  {
  }

  /** The settings as evidently intended: each keyword overrides its default. */
  function SettingsFrom(kwargs: seq<(string, Value)>): (r: Settings)
    ensures HasKey(kwargs, "client") ==> Lookup(kwargs, "client") == Some(r.client)
    ensures !HasKey(kwargs, "client") ==> r.client == Str(CLIENT)
    ensures HasKey(kwargs, "header") ==> Lookup(kwargs, "header") == Some(r.header)
    ensures !HasKey(kwargs, "header") ==> r.header == Object(HEADER)
    ensures HasKey(kwargs, "proxy") ==> Lookup(kwargs, "proxy") == Some(r.proxy)
    ensures !HasKey(kwargs, "proxy") ==> r.proxy == Null
  {
    Settings(KwargOr(kwargs, "client", Str(CLIENT)),
             KwargOr(kwargs, "header", Object(HEADER)),
             KwargOr(kwargs, "proxy", Null))
  }

  /** `BlinkAuthService(email, password, **kwargs)` constructed at `now`, as
      written: the keywords are read with `getattr` and so never take effect. */
  function New(email: string, password: string, kwargs: seq<(string, Value)>, now: int): (s: AuthService)
    ensures s.token == Null && s.region == Null && s.expires == now
    ensures s.email == email && s.password == password
    ensures s.settings == SettingsFrom([])
    ensures s.settings.client == Str(CLIENT) && s.settings.header == Object(HEADER) && s.settings.proxy == Null
  {
    AuthService(email, password, SettingsAsWritten(kwargs), Null, now, Null)
  }

  /** The token must be renewed: there is none, or fewer than
      `TOKEN_NEAR_EXPIRATION` seconds remain before it expires. */
  predicate Stale(s: AuthService, now: int) {
    s.token == Null || s.expires - now < TOKEN_NEAR_EXPIRATION
  }

  /** The body of the login request. */
  function LoginBody(s: AuthService): (body: Value)
    ensures Get(body, "email") == Some(Str(s.email))
    ensures Get(body, "password") == Some(Str(s.password))
    ensures Get(body, "client_specifier") == Some(s.settings.client)
  {
    var fields := [("email", Str(s.email)), ("password", Str(s.password)), ("client_specifier", s.settings.client)];
    assert Lookup(fields[2..], "client_specifier") == Some(s.settings.client);
    assert fields[1..][1..] == fields[2..];
    Object(fields)
  }

  /** What `_renew` leaves behind: the new state, the login body it sent
      (None when it did not log in), and whether it raised. */
  datatype Renewal = Renewal(state: AuthService, sent: Option<Value>, outcome: Result<()>)

  /** The same credentials and settings; token, expiry and region may differ. */
  predicate SameService(a: AuthService, b: AuthService) {
    a.email == b.email && a.password == b.password && a.settings == b.settings
  }

  /** `_renew()` at time `now`, the login (if any) answered by `response`. */
  function Renew(s: AuthService, now: int, response: Value): (r: Renewal)
    // logs in iff the token is stale, sending the credentials
    ensures r.sent.Some? <==> Stale(s, now)
    ensures r.sent.Some? ==> r.sent.value == LoginBody(s)
    ensures SameService(r.state, s)
    // a fresh token is left alone
    ensures !Stale(s, now) ==> r.state == s && r.outcome.Ok?
    // a login answered with `message` raises it and changes nothing
    ensures forall m :: Stale(s, now) && Get(response, "message") == Some(m) ==>
              r.state == s && r.outcome == Err(LoginFailed(m))
    // a successful login replaces token, expiry and region together
    ensures Stale(s, now) && r.outcome.Ok? ==>
              && Get(response, "message").None?
              && Get(response, "authtoken").Some?
              && Get(Get(response, "authtoken").value, "authtoken") == Some(r.state.token)
              && Get(response, "region") == Some(r.state.region)
              && r.state.expires == now + TOKEN_EXPIRATION
    ensures Stale(s, now) && r.outcome.Ok? <==>
              && Stale(s, now)
              && response.Object?
              && Get(response, "message").None?
              && Get(response, "authtoken").Some?
              && Get(Get(response, "authtoken").value, "authtoken").Some?
              && Get(response, "region").Some?
    // the region only changes with a successful login
    ensures r.outcome.Err? ==> r.state.region == s.region
    // the token only changes together with a fresh expiry
    ensures r.state.token != s.token ==> r.state.expires == now + TOKEN_EXPIRATION
    // the state changes only through a login that delivered a token, which is stored
    ensures r.state != s ==>
              && Stale(s, now)
              && Get(response, "message").None?
              && Get(response, "authtoken").Some?
              && Get(Get(response, "authtoken").value, "authtoken") == Some(r.state.token)
              && r.state.expires == now + TOKEN_EXPIRATION
    // and the only error that leaves it changed is the missing region
    ensures r.outcome.Err? && r.state != s ==> r.outcome == Err(KeyError("region"))
    // after a call that does not raise, a token that is set is fresh
    ensures r.outcome.Ok? && r.state.token != Null ==> !Stale(r.state, now)
  {
    if !Stale(s, now) then Renewal(s, None, Ok(()))
    else
      var sent := Some(LoginBody(s));
      match Contains(response, "message")
      case Err(e) => Renewal(s, sent, Err(e))
      case Ok(failed) =>
        if failed then
          match Subscript(response, "message")
          case Ok(m) => Renewal(s, sent, Err(LoginFailed(m)))
          case Err(e) => Renewal(s, sent, Err(e))
        else
          match Subscript(response, "authtoken")
          case Err(e) => Renewal(s, sent, Err(e))
          case Ok(auth) =>
            match Subscript(auth, "authtoken")
            case Err(e) => Renewal(s, sent, Err(e))
            case Ok(token) =>
              // the token and expiry are stored before the region is read
              var renewed := s.(token := token, expires := now + TOKEN_EXPIRATION);
              match Subscript(response, "region")
              case Err(e) => Renewal(renewed, sent, Err(e))
              case Ok(region) => Renewal(renewed.(region := region), sent, Ok(()))
  }

  /** A login response with a token but no region stores the new token and
      expiry, keeps the old region, and raises KeyError("region"). */
  lemma RegionMissingKeepsNewToken(s: AuthService, now: int, response: Value, token: Value)
    requires Stale(s, now)
    requires response.Object? && Get(response, "message").None? && Get(response, "region").None?
    requires Get(response, "authtoken").Some? && Get(Get(response, "authtoken").value, "authtoken") == Some(token)
    ensures var r := Renew(s, now, response);
            && r.state == s.(token := token, expires := now + TOKEN_EXPIRATION)
            && r.outcome == Err(KeyError("region"))
  {
  }

  /** At most one login per renewal cycle: after a login that stored a
      token, no renewal up to 290 seconds later logs in again or changes
      anything, whatever its response would have been. */
  lemma NoSecondLogin(s: AuthService, now: int, response: Value, later: int, response2: Value)
    requires Stale(s, now)
    requires Renew(s, now, response).outcome.Ok?
    requires Renew(s, now, response).state.token != Null
    requires later <= now + TOKEN_EXPIRATION - TOKEN_NEAR_EXPIRATION
    ensures var first := Renew(s, now, response).state;
            Renew(first, later, response2) == Renewal(first, None, Ok(()))
  {
  }

  /** A token with 5 seconds left is renewed; one with 20 seconds left is
      not. */
  lemma NearExpiryExample(s: AuthService, now: int, response: Value)
    requires s.token != Null
    ensures s.expires == now + 5 ==> Renew(s, now, response).sent.Some?
    ensures s.expires == now + 20 ==> Renew(s, now, response).sent.None?
  {
  }

  /** `token()`: renews, then returns the stored token. */
  function Token(s: AuthService, now: int, response: Value): (r: Step<AuthService, Value>)
    ensures r.state == Renew(s, now, response).state
    ensures r.outcome.Ok? <==> Renew(s, now, response).outcome.Ok?
    ensures r.outcome.Err? ==> r.outcome.error == Renew(s, now, response).outcome.error
    ensures r.outcome.Ok? ==> r.outcome.value == r.state.token
    ensures r.outcome.Ok? && r.outcome.value != Null ==> !Stale(r.state, now)
    ensures !Stale(s, now) ==> r == Step(s, Ok(s.token))
  {
    var renewal := Renew(s, now, response);
    match renewal.outcome
    case Err(e) => Step(renewal.state, Err(e))
    case Ok(_) => Step(renewal.state, Ok(renewal.state.token))
  }

  /** The `region` property: renews, then returns the stored region. */
  function Region(s: AuthService, now: int, response: Value): (r: Step<AuthService, Value>)
    ensures r.state == Renew(s, now, response).state
    ensures r.outcome.Ok? <==> Renew(s, now, response).outcome.Ok?
    ensures r.outcome.Err? ==> r.outcome.error == Renew(s, now, response).outcome.error
    ensures r.outcome.Ok? ==> r.outcome.value == r.state.region
    ensures Stale(s, now) && r.outcome.Ok? ==> Get(response, "region") == Some(r.outcome.value)
    ensures !Stale(s, now) ==> r == Step(s, Ok(s.region))
  {
    var renewal := Renew(s, now, response);
    match renewal.outcome
    case Err(e) => Step(renewal.state, Err(e))
    case Ok(_) => Step(renewal.state, Ok(renewal.state.region))
  }
}

=== FILE: factory.dfy ===
/** The loaders that turn a REST payload into records: `BlinkNetwork.load`,
    `BlinkFactory.load_sync_modules` and `BlinkFactory.load_devices`. Each
    returns None (here `Ok(None)`) for a falsy payload or one without its
    key, and otherwise builds one record per element, in order, raising at
    the first element that cannot be built. */
module Factory {
  import opened Json
  import opened Records

  /** Element `k` is the first for which `f` raises. */
  ghost predicate FirstRaise<T>(f: Value -> Result<T>, items: seq<Value>, k: int) {
    && 0 <= k < |items|
    && f(items[k]).Err?
    && forall j :: 0 <= j < k ==> f(items[j]).Ok?
  }

  /** The loop `for x in items: results.append(f(x))`: one result per
      element in order, or the exception of the first element that raises. */
  function MapAll<T>(f: Value -> Result<T>, items: seq<Value>): (r: Result<seq<T>>)
    ensures r.Ok? <==> forall i :: 0 <= i < |items| ==> f(items[i]).Ok?
    ensures r.Ok? ==> |r.value| == |items|
    ensures r.Ok? ==> forall i :: 0 <= i < |items| ==> f(items[i]) == Ok(r.value[i])
    ensures r.Err? ==> exists k :: FirstRaise(f, items, k) && r.error == f(items[k]).error
  {
    if |items| == 0 then Ok([])
    else
      match f(items[0])
      case Err(e) =>
        assert FirstRaise(f, items, 0);
        Err(e)
      case Ok(x) =>
        match MapAll(f, items[1..])
        case Err(e) =>
          assert exists k :: FirstRaise(f, items, k) && e == f(items[k]).error by {
            var k :| FirstRaise(f, items[1..], k) && e == f(items[1..][k]).error;
            assert FirstRaise(f, items, k + 1);
          }
          Err(e)
        case Ok(rest) =>
          Ok([x] + rest)
  }

  /** The record table of each device class. */
  function TableOf(d: Device): Table {
    match d
    case CameraXt(_) => CAMERA_FIELDS
    case CameraWhite(_) => CAMERA_FIELDS
    case DeviceSyncModule(_) => DEVICE_SYNC_MODULE_FIELDS
  }

  /** One iteration of the `load_devices` loop: `Ok(None)` when the element
      has no `device_type` and is skipped, `Ok(Some(d))` when it becomes
      record `d`. */
  function Classify(device: Value): (r: Result<Option<Device>>)
    // skipped exactly when `'device_type' in device` is False
    ensures r == Ok(None) <==> Contains(device, "device_type") == Ok(false)
    // a record is only ever built from a dict, from all the keys its class reads
    ensures r.Ok? && r.value.Some? ==> device.Object? && Built(device, TableOf(r.value.value), r.value.value.fields)
    ensures (r.Ok? && r.value.Some? && r.value.value.CameraXt?) <==>
              && Get(device, "device_type") == Some(Str("camera"))
              && Get(device, "type") == Some(Str("xt"))
              && HasAll(device, CAMERA_FIELDS)
    ensures (r.Ok? && r.value.Some? && r.value.value.CameraWhite?) <==>
              && Get(device, "device_type") == Some(Str("camera"))
              && Get(device, "type") == Some(Str("white"))
              && HasAll(device, CAMERA_FIELDS)
    ensures (r.Ok? && r.value.Some? && r.value.value.DeviceSyncModule?) <==>
              && Get(device, "device_type") == Some(Str("sync_module"))
              && HasAll(device, DEVICE_SYNC_MODULE_FIELDS)
    // a camera of any other type
    ensures forall t :: Get(device, "device_type") == Some(Str("camera")) && Get(device, "type") == Some(t)
                        && t != Str("xt") && t != Str("white")
                        ==> r == Err(UnknownDevice(Str("camera"), t))
    ensures Get(device, "device_type") == Some(Str("camera")) && Get(device, "type").None?
            ==> r == Err(KeyError("type"))
    // any other device type
    ensures forall v :: Get(device, "device_type") == Some(v) && v != Str("camera") && v != Str("sync_module")
                        ==> r == Err(UnknownDevice(v, Null))
    // a camera or sync module missing a key its class reads raises that class's error
    ensures Get(device, "device_type") == Some(Str("camera"))
            && (Get(device, "type") == Some(Str("xt")) || Get(device, "type") == Some(Str("white")))
            && CameraFrom(device).Err?
            ==> r == Err(CameraFrom(device).error)
    ensures Get(device, "device_type") == Some(Str("sync_module")) && DeviceSyncModuleFrom(device).Err?
            ==> r == Err(DeviceSyncModuleFrom(device).error)
    // a string or list that contains "device_type" cannot be subscripted by it
    ensures Contains(device, "device_type") == Ok(true) && !device.Object? ==> r == Err(TypeError)
    // a value that is no container at all
    ensures Contains(device, "device_type").Err? ==> r == Err(TypeError)
  {
    var has :- Contains(device, "device_type");
    if !has then Ok(None)
    else
      var deviceType :- Subscript(device, "device_type");
      if deviceType == Str("camera") then
        var typ :- Subscript(device, "type");
        if typ == Str("xt") then
          var fields :- CameraFrom(device);
          Ok(Some(CameraXt(fields)))
        else if typ == Str("white") then
          var fields :- CameraFrom(device);
          Ok(Some(CameraWhite(fields)))
        else
          Err(UnknownDevice(deviceType, typ))
      else if deviceType == Str("sync_module") then
        var d :- DeviceSyncModuleFrom(device);
        Ok(Some(d))
      else
        Err(UnknownDevice(deviceType, Null))
  }

  /** The records among the classified elements, in order. */
  function Somes(xs: seq<Option<Device>>): (r: seq<Device>)
    ensures |r| <= |xs|
    ensures forall d :: d in r <==> Some(d) in xs
  {
    if |xs| == 0 then []
    else
      var rest := Somes(xs[1..]);
      assert forall d :: Some(d) in xs <==> Some(d) == xs[0] || Some(d) in xs[1..];
      match xs[0]
      case Some(d) => [d] + rest
      case None => rest
  }

  /** `idx` lists, in increasing order, the positions of `xs` that hold a
      record, and `out` is those records. */
  ghost predicate PickedInOrder(xs: seq<Option<Device>>, out: seq<Device>, idx: seq<int>) {
    && |idx| == |out|
    && (forall j :: 0 <= j < |idx| ==> 0 <= idx[j] < |xs| && xs[idx[j]] == Some(out[j]))
    && (forall j, j' :: 0 <= j < j' < |idx| ==> idx[j] < idx[j'])
    && (forall i :: 0 <= i < |xs| && xs[i].Some? ==> i in idx)
  }

  function Shift(idx: seq<int>): (r: seq<int>)
    ensures |r| == |idx|
    ensures forall j :: 0 <= j < |idx| ==> r[j] == idx[j] + 1
  {
    seq(|idx|, j requires 0 <= j < |idx| => idx[j] + 1)
  }

  /** Positions picked in the tail of `xs`, shifted by one, are positions
      of the same records in `xs`, still increasing, covering every record
      after the head. */
  lemma ShiftPicked(xs: seq<Option<Device>>, out: seq<Device>, idx: seq<int>)
    requires |xs| > 0
    requires PickedInOrder(xs[1..], out, idx)
    ensures forall j :: 0 <= j < |idx| ==> 1 <= Shift(idx)[j] < |xs| && xs[Shift(idx)[j]] == Some(out[j])
    ensures forall i :: 1 <= i < |xs| && xs[i].Some? ==> i in Shift(idx)
    ensures forall j, j' :: 0 <= j < j' < |idx| ==> Shift(idx)[j] < Shift(idx)[j']
  {
    var shifted := Shift(idx);
    forall j | 0 <= j < |idx|
      ensures 1 <= shifted[j] < |xs| && xs[shifted[j]] == Some(out[j])
    {
      assert xs[1..][idx[j]] == xs[idx[j] + 1];
    }
    forall i | 1 <= i < |xs| && xs[i].Some?
      ensures i in shifted
    {
      assert xs[1..][i - 1] == xs[i];
      var j :| 0 <= j < |idx| && idx[j] == i - 1;
      assert shifted[j] == i;
    }
    forall j, j' | 0 <= j < j' < |idx|
      ensures shifted[j] < shifted[j']
    {
      assert idx[j] < idx[j'];
    }
  }

  /** ... and, prefixed with position 0, the positions picked in `xs` when
      its head holds a record. */
  lemma ConsPicked(xs: seq<Option<Device>>, out: seq<Device>, idx: seq<int>)
    requires |xs| > 0 && xs[0].Some?
    requires |idx| == |out|
    requires forall j :: 0 <= j < |idx| ==> 1 <= idx[j] < |xs| && xs[idx[j]] == Some(out[j])
    requires forall j, j' :: 0 <= j < j' < |idx| ==> idx[j] < idx[j']
    requires forall i :: 1 <= i < |xs| && xs[i].Some? ==> i in idx
    ensures PickedInOrder(xs, [xs[0].value] + out, [0] + idx)
  {
    var idx2 := [0] + idx;
    var out2 := [xs[0].value] + out;
    forall j | 0 <= j < |idx2|
      ensures 0 <= idx2[j] < |xs| && xs[idx2[j]] == Some(out2[j])
    {
      if j > 0 {
        assert idx2[j] == idx[j - 1];
        assert out2[j] == out[j - 1];
      }
    }
    forall j, j' | 0 <= j < j' < |idx2|
      ensures idx2[j] < idx2[j']
    {
      assert idx2[j'] == idx[j' - 1];
      if j > 0 {
        assert idx2[j] == idx[j - 1];
      }
    }
    forall i | 0 <= i < |xs| && xs[i].Some?
      ensures i in idx2
    {
      if i > 0 {
        assert i in idx;
      }
    }
  }

  /** Dropping the skipped elements keeps the records in input order and
      drops no record. */
  lemma {:induction false} SomesInOrder(xs: seq<Option<Device>>)
    ensures exists idx :: PickedInOrder(xs, Somes(xs), idx)
  {
    if |xs| == 0 {
      assert PickedInOrder(xs, Somes(xs), []);
    } else {
      SomesInOrder(xs[1..]);
      var idx :| PickedInOrder(xs[1..], Somes(xs[1..]), idx);
      ShiftPicked(xs, Somes(xs[1..]), idx);
      if xs[0].Some? {
        ConsPicked(xs, Somes(xs[1..]), Shift(idx));
        assert Somes(xs) == [xs[0].value] + Somes(xs[1..]);
        assert PickedInOrder(xs, Somes(xs), [0] + Shift(idx));
      } else {
        assert Somes(xs) == Somes(xs[1..]);
        assert PickedInOrder(xs, Somes(xs), Shift(idx));
      }
    }
  }

  /** `BlinkFactory.load_devices(data)`. */
  function LoadDevices(data: Value): (r: Result<Option<seq<Device>>>)
    ensures !Truthy(data) ==> r == Ok(None)
    ensures data.Object? && Truthy(data) && Get(data, "devices").None? ==> r == Ok(None)
    // a list is returned only for a dict holding `devices`, never longer than what it iterates
    ensures r.Ok? && r.value.Some? ==>
              && Get(data, "devices").Some?
              && Iterate(Get(data, "devices").value).Ok?
              && |r.value.value| <= |Iterate(Get(data, "devices").value).value|
  {
    if !Truthy(data) then Ok(None)
    else
      var has :- Contains(data, "devices");
      if !has then Ok(None)
      else
        var devices :- Subscript(data, "devices");
        var items :- Iterate(devices);
        var classified :- MapAll(Classify, items);
        Ok(Some(Somes(classified)))
  }

  /** The `devices` list of a payload, when it holds one. */
  predicate HasList(data: Value, key: string) {
    Get(data, key).Some? && Get(data, key).value.Array?
  }

  function ListOf(data: Value, key: string): seq<Value>
    requires HasList(data, key)
  {
    Get(data, key).value.items
  }

  /** The records kept after classifying every element are exactly those
      some element classified to. */
  lemma MapAllSomes(f: Value -> Result<Option<Device>>, items: seq<Value>)
    requires MapAll(f, items).Ok?
    ensures forall d :: d in Somes(MapAll(f, items).value) <==>
                          exists i :: 0 <= i < |items| && f(items[i]) == Ok(Some(d))
  {
    var m := MapAll(f, items);
    forall d
      ensures d in Somes(m.value) <==> exists i :: 0 <= i < |items| && f(items[i]) == Ok(Some(d))
    {
      if Some(d) in m.value {
        var i :| 0 <= i < |m.value| && m.value[i] == Some(d);
        assert f(items[i]) == Ok(Some(d));
      }
      if exists i :: 0 <= i < |items| && f(items[i]) == Ok(Some(d)) {
        var i :| 0 <= i < |items| && f(items[i]) == Ok(Some(d));
        assert m.value[i] == Some(d);
      }
    }
  }

  /** Over a `devices` list, `load_devices` succeeds iff every element
      classifies, and then returns exactly the records of the classified
      elements; otherwise it raises what the first failing element raises. */
  lemma LoadDevicesList(data: Value)
    requires HasList(data, "devices")
    ensures var items := ListOf(data, "devices");
            LoadDevices(data).Ok? <==> forall i :: 0 <= i < |items| ==> Classify(items[i]).Ok?
    ensures var items := ListOf(data, "devices");
            LoadDevices(data).Ok? ==>
              && LoadDevices(data).value.Some?
              && forall d :: d in LoadDevices(data).value.value <==>
                               exists i :: 0 <= i < |items| && Classify(items[i]) == Ok(Some(d))
    ensures var items := ListOf(data, "devices");
            LoadDevices(data).Err? ==>
              exists k :: FirstRaise(Classify, items, k) && LoadDevices(data).error == Classify(items[k]).error
  {
    var items := ListOf(data, "devices");
    var m := MapAll(Classify, items);
    assert LoadDevices(data) == if m.Ok? then Ok(Some(Somes(m.value))) else Err(m.error);
    if m.Ok? {
      MapAllSomes(Classify, items);
    }
  }

  /** Positions `idx` of `items`, increasing, are exactly the elements that
      became records, and `out` is those records. */
  ghost predicate DevicesInOrder(items: seq<Value>, out: seq<Device>, idx: seq<int>) {
    && |idx| == |out|
    && (forall j :: 0 <= j < |idx| ==> 0 <= idx[j] < |items| && Classify(items[idx[j]]) == Ok(Some(out[j])))
    && (forall j, j' :: 0 <= j < j' < |idx| ==> idx[j] < idx[j'])
    && (forall i :: 0 <= i < |items| && Classify(items[i]).Ok? && Classify(items[i]).value.Some? ==> i in idx)
  }

  /** `load_devices` keeps input order: its records are the elements of the
      `devices` list that became records, in the order of the list. */
  lemma LoadDevicesInOrder(data: Value)
    requires HasList(data, "devices")
    requires LoadDevices(data).Ok?
    ensures LoadDevices(data).value.Some?
    ensures exists idx :: DevicesInOrder(ListOf(data, "devices"), LoadDevices(data).value.value, idx)
  {
    var items := ListOf(data, "devices");
    var classified := MapAll(Classify, items).value;
    assert LoadDevices(data) == Ok(Some(Somes(classified)));
    SomesInOrder(classified);
    var idx :| PickedInOrder(classified, Somes(classified), idx);
    assert DevicesInOrder(items, Somes(classified), idx);
  }

  /** A payload listing one device decodes to that device's record, to an
      empty list when the device is skipped, or raises what it raises. */
  lemma SingleDevice(device: Value)
    ensures var r := LoadDevices(Object([("devices", Array([device]))]));
            && (Classify(device).Err? ==> r == Err(Classify(device).error))
            && (Classify(device) == Ok(None) ==> r == Ok(Some([])))
            && (forall d :: Classify(device) == Ok(Some(d)) ==> r == Ok(Some([d])))
  {
    var data := Object([("devices", Array([device]))]);
    var c := Classify(device);
    assert Get(data, "devices") == Some(Array([device]));
    assert Contains(data, "devices") == Ok(true);
    assert Iterate(Array([device])) == Ok([device]);
    var m := MapAll(Classify, [device]);
    assert LoadDevices(data) == if m.Ok? then Ok(Some(Somes(m.value))) else Err(m.error);
    if m.Ok? {
      assert m.value == [c.value];
      assert Somes([c.value]) == (if c.value.Some? then [c.value.value] else []) by {
        assert [c.value][1..] == [];
      }
    } else {
      var k :| FirstRaise(Classify, [device], k) && m.error == Classify([device][k]).error;
      assert k == 0;
    }
  }

  /** The dispatch on the discriminators: a camera of type "foo" raises
      UnknownDevice("camera", "foo"), a thermostat raises
      UnknownDevice("thermostat", None), and an element without
      `device_type` is skipped. */
  lemma DispatchExamples()
    ensures Classify(Object([("device_type", Str("camera")), ("type", Str("foo"))]))
            == Err(UnknownDevice(Str("camera"), Str("foo")))
    ensures Classify(Object([("device_type", Str("thermostat"))]))
            == Err(UnknownDevice(Str("thermostat"), Null))
    ensures Classify(Object([("name", Str("porch"))])) == Ok(None)
  {
    var camera := [("device_type", Str("camera")), ("type", Str("foo"))];
    assert Lookup(camera[1..], "type") == Some(Str("foo"));
    assert Get(Object(camera), "type") == Some(Str("foo"));
  }

  /** `BlinkNetwork.load(data)`. */
  function LoadNetworks(data: Value): (r: Result<Option<seq<Network>>>)
    ensures !Truthy(data) ==> r == Ok(None)
    ensures data.Object? && Truthy(data) && Get(data, "networks").None? ==> r == Ok(None)
    // a list is returned only for a dict holding `networks`, one network per element it iterates
    ensures r.Ok? && r.value.Some? ==>
              && Get(data, "networks").Some?
              && Iterate(Get(data, "networks").value).Ok?
              && |r.value.value| == |Iterate(Get(data, "networks").value).value|
  {
    if !Truthy(data) then Ok(None)
    else
      var has :- Contains(data, "networks");
      if !has then Ok(None)
      else
        var networks :- Subscript(data, "networks");
        var items :- Iterate(networks);
        var loaded :- MapAll(NetworkFrom, items);
        Ok(Some(loaded))
  }

  /** Over a `networks` list, `BlinkNetwork.load` returns exactly one network
      per element, in order, each built from its element; or raises what the
      first element that cannot be built raises. */
  lemma LoadNetworksList(data: Value)
    requires HasList(data, "networks")
    ensures var items := ListOf(data, "networks");
            LoadNetworks(data).Ok? <==> forall i :: 0 <= i < |items| ==> NetworkFrom(items[i]).Ok?
    ensures var items := ListOf(data, "networks");
            LoadNetworks(data).Ok? ==>
              && LoadNetworks(data).value.Some?
              && |LoadNetworks(data).value.value| == |items|
              && forall i :: 0 <= i < |items| ==> NetworkFrom(items[i]) == Ok(LoadNetworks(data).value.value[i])
    ensures var items := ListOf(data, "networks");
            LoadNetworks(data).Err? ==>
              exists k :: FirstRaise(NetworkFrom, items, k) && LoadNetworks(data).error == NetworkFrom(items[k]).error
  {
    var m := MapAll(NetworkFrom, ListOf(data, "networks"));
    assert LoadNetworks(data) == if m.Ok? then Ok(Some(m.value)) else Err(m.error);
  }

  /** `BlinkFactory.load_sync_modules(data)`: it tests for the key `devices`
      but iterates the key `syncmodule`. */
  function LoadSyncModules(data: Value): (r: Result<Option<seq<SyncModule>>>)
    ensures !Truthy(data) ==> r == Ok(None)
    // without `devices` nothing is loaded, whatever `syncmodule` holds
    ensures data.Object? && Truthy(data) && Get(data, "devices").None? ==> r == Ok(None)
    // with `devices` but without `syncmodule` it raises
    ensures Get(data, "devices").Some? && Get(data, "syncmodule").None? ==> r == Err(KeyError("syncmodule"))
    ensures r.Ok? && r.value.Some? ==>
              && Get(data, "devices").Some?
              && Get(data, "syncmodule").Some?
              && Iterate(Get(data, "syncmodule").value).Ok?
              && |r.value.value| == |Iterate(Get(data, "syncmodule").value).value|
  {
    if !Truthy(data) then Ok(None)
    else
      var has :- Contains(data, "devices");
      if !has then Ok(None)
      else
        var modules :- Subscript(data, "syncmodule");
        var items :- Iterate(modules);
        var loaded :- MapAll(SyncModuleFrom, items);
        Ok(Some(loaded))
  }

  /** Given `devices`, over a `syncmodule` list `load_sync_modules` returns
      one sync module per element, in order, or raises what the first
      element that cannot be built raises. */
  lemma LoadSyncModulesList(data: Value)
    requires Get(data, "devices").Some?
    requires HasList(data, "syncmodule")
    ensures var items := ListOf(data, "syncmodule");
            LoadSyncModules(data).Ok? <==> forall i :: 0 <= i < |items| ==> SyncModuleFrom(items[i]).Ok?
    ensures var items := ListOf(data, "syncmodule");
            LoadSyncModules(data).Ok? ==>
              && LoadSyncModules(data).value.Some?
              && |LoadSyncModules(data).value.value| == |items|
              && forall i :: 0 <= i < |items| ==> SyncModuleFrom(items[i]) == Ok(LoadSyncModules(data).value.value[i])
    ensures var items := ListOf(data, "syncmodule");
            LoadSyncModules(data).Err? ==>
              exists k :: FirstRaise(SyncModuleFrom, items, k) && LoadSyncModules(data).error == SyncModuleFrom(items[k]).error
  {
    var m := MapAll(SyncModuleFrom, ListOf(data, "syncmodule"));
    assert LoadSyncModules(data) == if m.Ok? then Ok(Some(m.value)) else Err(m.error);
  }
}

=== FILE: json.dfy ===
/** Decoded JSON values as the client sees them after `response.json()`, the
    Python built-in operations the client applies to them (truthiness, `in`,
    subscription, iteration, `dict.update`), and the exceptions that those
    operations and the client itself raise. */
module Json {

  /** A decoded JSON value. An object keeps its members in insertion order,
      as a Python dict does, so "the first key" of an object is meaningful. */
  datatype Value =
    | Null
    | Bool(b: bool)
    | Num(n: int)
    | Str(s: string)
    | Array(items: seq<Value>)
    | Object(fields: seq<(string, Value)>)

  datatype Option<+T> = None | Some(value: T)

  /** Every exception the modelled code can raise. The first four are Python
      built-ins raised by operations on decoded values; the rest are the
      client's own. */
  datatype Exception =
    | KeyError(key: string)
    | TypeError
    | AttributeError
    | StopIteration
      /** `BlinkUnknownDevice(device, specific)`; `specific` is `Null` for None. */
    | UnknownDevice(device: Value, specific: Value)
      /** `Exception(response['message'])` raised by a failed login. */
    | LoginFailed(message: Value)
      /** `BlinkRateLimitExceededException` with the count and the maximum. */
    | RateLimitExceeded(count: int, max: int)

  datatype Result<+T> = Ok(value: T) | Err(error: Exception) {
    predicate IsFailure() {
      Err?
    }

    function PropagateFailure<U>(): Result<U>
      requires Err?
    {
      Err(error)
    }

    function Extract(): T
      requires Ok?
    {
      value
    }
  }

  /** The state an operation leaves behind together with what it returned or
      raised; a raising operation may still have changed the state. */
  datatype Step<S, T> = Step(state: S, outcome: Result<T>)

  /** The keys of an object, in order. */
  function Keys(fields: seq<(string, Value)>): (ks: seq<string>)
    ensures |ks| == |fields|
    ensures forall i :: 0 <= i < |fields| ==> ks[i] == fields[i].0
  {
    if |fields| == 0 then [] else [fields[0].0] + Keys(fields[1..])
  }

  predicate HasKey(fields: seq<(string, Value)>, key: string) {
    key in Keys(fields)
  }

  /** The value bound to `key`: the first binding, which is the only one in
      any object a Python dict can hold. */
  function Lookup(fields: seq<(string, Value)>, key: string): (r: Option<Value>)
    ensures r.None? <==> !HasKey(fields, key)
    ensures r.Some? ==> (key, r.value) in fields
  {
    if |fields| == 0 then None
    else if fields[0].0 == key then Some(fields[0].1)
    else Lookup(fields[1..], key)
  }

  /** The member `key` of `v` when `v` is an object holding it. */
  function Get(v: Value, key: string): Option<Value> {
    if v.Object? then Lookup(v.fields, key) else None
  }

  /** Python truthiness: `not v` is false exactly for these values. */
  predicate Truthy(v: Value) {
    match v
    case Null => false
    case Bool(b) => b
    case Num(n) => n != 0
    case Str(s) => s != []
    case Array(items) => items != []
    case Object(fields) => fields != []
  }

  predicate IsPrefix(needle: string, hay: string) {
    |needle| <= |hay| && hay[..|needle|] == needle
  }

  /** Python's `needle in hay` on two strings. */
  predicate IsSubstring(needle: string, hay: string)
    decreases |hay|
  {
    IsPrefix(needle, hay) || (|hay| > 0 && IsSubstring(needle, hay[1..]))
  }

  /** Python's `key in v` for a string `key`: key membership for a dict,
      element membership for a list, substring for a string; None, numbers
      and booleans are not containers. */
  function Contains(v: Value, key: string): (r: Result<bool>)
    ensures v.Object? ==> r == Ok(Get(v, key).Some?)
    ensures v.Array? ==> r == Ok(Str(key) in v.items)
    ensures r.Err? <==> (v.Null? || v.Bool? || v.Num?)
  {
    match v
    case Object(fields) => Ok(HasKey(fields, key))
    case Array(items) => Ok(Str(key) in items)
    case Str(s) => Ok(IsSubstring(key, s))
    case _ => Err(TypeError)
  }

  /** Python's `v[key]` for a string `key`: a dict raises KeyError for a
      missing key; every other value raises TypeError. */
  function Subscript(v: Value, key: string): (r: Result<Value>)
    ensures r.Ok? <==> Get(v, key).Some?
    ensures r.Ok? ==> Get(v, key) == Some(r.value)
    ensures r.Err? ==> r.error == (if v.Object? then KeyError(key) else TypeError)
  {
    match v
    case Object(fields) =>
      (match Lookup(fields, key)
       case Some(x) => Ok(x)
       case None => Err(KeyError(key)))
    case _ => Err(TypeError)
  }

  /** What `for x in v` visits: a list's items, a dict's keys, a string's
      characters; other values are not iterable. */
  function Iterate(v: Value): (r: Result<seq<Value>>)
    ensures r.Ok? <==> (v.Array? || v.Object? || v.Str?)
    ensures v.Array? ==> r == Ok(v.items)
    ensures v.Object? ==> r.Ok? && |r.value| == |v.fields|
                          && forall i :: 0 <= i < |v.fields| ==> r.value[i] == Str(v.fields[i].0)
    ensures v.Str? ==> r.Ok? && |r.value| == |v.s|
                       && forall i :: 0 <= i < |v.s| ==> r.value[i] == Str([v.s[i]])
  {
    match v
    case Array(items) => Ok(items)
    case Object(fields) => Ok(seq(|fields|, i requires 0 <= i < |fields| => Str(fields[i].0)))
    case Str(s) => Ok(seq(|s|, i requires 0 <= i < |s| => Str([s[i]])))
    case _ => Err(TypeError)
  }

  /** `d.update({key: v})` on a dict: an existing key keeps its position and
      takes the new value; a new key is appended. */
  function Update(fields: seq<(string, Value)>, key: string, v: Value): (r: seq<(string, Value)>)
    ensures |fields| <= |r| <= |fields| + 1
  {
    if |fields| == 0 then [(key, v)]
    else if fields[0].0 == key then [(key, v)] + fields[1..]
    else [fields[0]] + Update(fields[1..], key, v)
  }

  /** After the update `key` holds `v` and every other key is unchanged. */
  lemma {:induction false} UpdateLookup(fields: seq<(string, Value)>, key: string, v: Value)
    ensures Lookup(Update(fields, key, v), key) == Some(v)
    ensures forall k :: k != key ==> Lookup(Update(fields, key, v), k) == Lookup(fields, k)
  {
    if |fields| > 0 && fields[0].0 != key {
      UpdateLookup(fields[1..], key, v);
      var r := Update(fields, key, v);
      assert r[1..] == Update(fields[1..], key, v);
    } else if |fields| > 0 {
      var r := Update(fields, key, v);
      assert r[1..] == fields[1..];
    }
  }

  /** The update keeps the keys in place and appends a new one. */
  lemma {:induction false} UpdateKeys(fields: seq<(string, Value)>, key: string, v: Value)
    ensures Keys(Update(fields, key, v)) == if HasKey(fields, key) then Keys(fields) else Keys(fields) + [key]
  {
    if |fields| > 0 {
      var r := Update(fields, key, v);
      if fields[0].0 == key {
        assert r[1..] == fields[1..];
      } else {
        UpdateKeys(fields[1..], key, v);
        assert r[1..] == Update(fields[1..], key, v);
        assert HasKey(fields, key) <==> HasKey(fields[1..], key);
      }
    }
  }
}

=== FILE: ratelimit.dfy ===
/** `BlinkRestApiX._check_rate_limits`: a sliding window over the times of
    recent calls. The current call is recorded before the decision, so a
    rejected call stays in the window and counts against later calls. */
module RateLimit {
  import opened Json

  /** The default maximum number of calls in the window. */
  const MAXIMUM_CALLS_PER_MINUTE := 10
  /** The window length, in seconds. */
  const WINDOW := 60

  /** `self._http_rates`: the times of recorded calls, oldest first, and the
      maximum. */
  datatype Rates = Rates(calls: seq<int>, max: int)

  /** The rates of a freshly constructed client. */
  function Initial(): Rates {
    Rates([], MAXIMUM_CALLS_PER_MINUTE)
  }

  /** `[t for t in ts if t > cutoff]`: every occurrence of a time past the
      cutoff is kept, repeats included, and no other. */
  function After(ts: seq<int>, cutoff: int): (r: seq<int>)
    ensures |r| <= |ts|
    ensures forall t :: t in r <==> t in ts && t > cutoff
    ensures forall t :: multiset(r)[t] == if t > cutoff then multiset(ts)[t] else 0
  {
    if |ts| == 0 then []
    else
      assert ts == [ts[0]] + ts[1..];
      var rest := After(ts[1..], cutoff);
      if ts[0] > cutoff then [ts[0]] + rest
      else rest
  }

  /** Repeated times are counted once each: two calls in the same second
      inside the window both stay. */
  lemma AfterKeepsRepeats(t: int, cutoff: int)
    requires t > cutoff
    ensures |After([t, t], cutoff)| == 2
  {
  }

  /** Filtering distributes over appending one more time. */
  lemma {:induction false} AfterSnoc(ts: seq<int>, x: int, cutoff: int)
    ensures After(ts + [x], cutoff) == After(ts, cutoff) + (if x > cutoff then [x] else [])
  {
    if |ts| > 0 {
      assert (ts + [x])[1..] == ts[1..] + [x];
      AfterSnoc(ts[1..], x, cutoff);
    } else {
      assert ts + [x] == [x];
    }
  }

  /** A sequence whose every time is already past the cutoff is kept whole. */
  lemma {:induction false} AfterKeepsRecent(ts: seq<int>, cutoff: int)
    requires forall i :: 0 <= i < |ts| ==> ts[i] > cutoff
    ensures After(ts, cutoff) == ts
  {
    if |ts| > 0 {
      AfterKeepsRecent(ts[1..], cutoff);
    }
  }

  predicate Sorted(ts: seq<int>) {
    forall i, j :: 0 <= i < j < |ts| ==> ts[i] <= ts[j]
  }

  /** Filtering keeps the order of what it keeps. */
  lemma {:induction false} AfterSorted(ts: seq<int>, cutoff: int)
    requires Sorted(ts)
    ensures Sorted(After(ts, cutoff))
  {
    if |ts| > 0 {
      AfterSorted(ts[1..], cutoff);
      var rest := After(ts[1..], cutoff);
      if ts[0] > cutoff {
        forall j | 0 <= j < |rest|
          ensures ts[0] <= rest[j]
        {
          assert rest[j] in ts[1..];
        }
      }
    }
  }

  /** `_check_rate_limits()` at time `now`: records `now`, evicts the times
      at or before `now - 60`, and raises when more than `max` remain. */
  function CheckRateLimits(rates: Rates, now: int): (r: Step<Rates, ()>)
    ensures r.state.max == rates.max
    // the surviving earlier calls, in order, then this one
    ensures r.state.calls == After(rates.calls, now - WINDOW) + [now]
    // what remains is every earlier call and this one, less those outside the window
    ensures forall t :: t in r.state.calls <==> (t in rates.calls || t == now) && t > now - WINDOW
    ensures |r.state.calls| <= |rates.calls| + 1
    // and counts every occurrence: each time keeps its multiplicity
    ensures forall t :: multiset(r.state.calls)[t] ==
              if t > now - WINDOW then multiset(rates.calls + [now])[t] else 0
    // the current call is recorded last, whether admitted or not
    ensures |r.state.calls| > 0 && r.state.calls[|r.state.calls| - 1] == now
    // rejected exactly when the count exceeds the maximum
    ensures r.outcome.Err? <==> |r.state.calls| > rates.max
    ensures r.outcome.Err? ==> r.outcome.error == RateLimitExceeded(|r.state.calls|, rates.max)
  {
    AfterSnoc(rates.calls, now, now - WINDOW);
    var calls := After(rates.calls + [now], now - WINDOW);
    var count := |calls|;
    Step(Rates(calls, rates.max),
         if count > rates.max then Err(RateLimitExceeded(count, rates.max)) else Ok(()))
  }

  /** With a clock that does not go back, the window stays sorted and holds
      only times in `(now - 60, now]`. */
  lemma CheckKeepsWindow(rates: Rates, now: int)
    requires Sorted(rates.calls)
    requires forall i :: 0 <= i < |rates.calls| ==> rates.calls[i] <= now
    ensures Sorted(CheckRateLimits(rates, now).state.calls)
    ensures forall t :: t in CheckRateLimits(rates, now).state.calls ==> now - WINDOW < t <= now
  {
    var ts := rates.calls + [now];
    assert Sorted(ts);
    AfterSorted(ts, now - WINDOW);
  }

  /** When every recorded call is still inside the window, nothing is
      evicted: the call is admitted while fewer than `max` calls are
      recorded, and rejected once `max` are. */
  lemma CheckWithinWindow(rates: Rates, now: int)
    requires forall i :: 0 <= i < |rates.calls| ==> rates.calls[i] > now - WINDOW
    ensures CheckRateLimits(rates, now).state.calls == rates.calls + [now]
    ensures CheckRateLimits(rates, now).outcome.Ok? <==> |rates.calls| < rates.max
  {
    AfterKeepsRecent(rates.calls + [now], now - WINDOW);
  }

  /** A rejected call keeps counting: retrying at the same instant is
      rejected again, with one more call recorded. */
  lemma RejectionPersists(rates: Rates, now: int)
    requires CheckRateLimits(rates, now).outcome.Err?
    ensures var again := CheckRateLimits(CheckRateLimits(rates, now).state, now);
            again.outcome.Err? && |again.state.calls| == |CheckRateLimits(rates, now).state.calls| + 1
  {
    var first := CheckRateLimits(rates, now).state;
    forall i | 0 <= i < |first.calls|
      ensures first.calls[i] > now - WINDOW
    {
      assert first.calls[i] in first.calls;
    }
    CheckWithinWindow(first, now);
  }

  /** Calls at `t`, `t + 10` and `t + 70` with a maximum of 2 leave 1, 2 and
      1 calls in the window, and all three are admitted: the call at `t` has
      left the window by the third. */
  lemma SlidingExample(t: int)
    ensures var s1 := CheckRateLimits(Rates([], 2), t);
            var s2 := CheckRateLimits(s1.state, t + 10);
            var s3 := CheckRateLimits(s2.state, t + 70);
            && s1.state.calls == [t] && s1.outcome.Ok?
            && s2.state.calls == [t, t + 10] && s2.outcome.Ok?
            && s3.state.calls == [t + 70] && s3.outcome.Ok?
  {
    var s1 := CheckRateLimits(Rates([], 2), t);
    CheckWithinWindow(Rates([], 2), t);
    CheckWithinWindow(s1.state, t + 10);
    var s2 := CheckRateLimits(s1.state, t + 10);
    assert [t, t + 10][1..] == [t + 10];
    assert [t + 10][1..] == [];
    assert After([t, t + 10], t + 10) == [];
    AfterSnoc([t, t + 10], t + 70, t + 10);
  }
}

=== FILE: records.dfy ===
/** The resource records. In the client each record class subclasses `dict`
    and is built by reading a fixed list of payload keys and storing each
    value under its own, sometimes renamed, record key. Each record here is
    that dict, tagged with its class. */
module Records {
  import opened Json

  /** A renaming table: pairs (record key, payload key), in the order the
      constructor passes its keyword arguments. */
  type Table = seq<(string, string)>

  /** `BlinkNetwork.__init__`. */
  const NETWORK_FIELDS: Table := [
    ("account_id", "account_id"),
    ("armed", "armed"),
    ("created_on", "created_at"),
    ("description", "description"),
    ("id", "id"),
    ("name", "name"),
    ("origin", "network_origin"),
    ("ping", "ping_interval"),
    ("timez", "time_zone"),
    ("last_update_on", "updated_at")
  ]

  /** `BlinkDeviceCameraXt.__init__` and `BlinkDeviceCameraWhite.__init__`,
      which read the same keys. */
  const CAMERA_FIELDS: Table := [
    ("state", "active"),
    ("armed", "armed"),
    ("device_type", "device_type"),
    ("model", "type"),
    ("id", "device_id"),
    ("name", "name"),
    ("enabled", "enabled"),
    ("temperature", "temp"),
    ("battery", "battery"),
    ("battery_state", "battery_state"),
    ("warning", "warning"),
    ("errors", "errors"),
    ("error_msg", "error_msg"),
    ("last_update_on", "updated_at")
  ]

  /** `BlinkDeviceSyncModule.__init__`: a sync module listed among devices. */
  const DEVICE_SYNC_MODULE_FIELDS: Table := [
    ("device_type", "device_type"),
    ("id", "device_id"),
    ("status", "status"),
    ("last_hb", "last_hb"),
    ("warning", "warning"),
    ("errors", "errors"),
    ("error_msg", "error_msg"),
    ("last_update_on", "updated_at")
  ]

  /** `BlinkSyncModule.__init__`. */
  const SYNC_MODULE_FIELDS: Table := [
    ("account_id", "account_id"),
    ("created_on", "created_at"),
    ("firmware", "fw_version"),
    ("id", "id"),
    ("ip_address", "ip_address"),
    ("last_activity", "last_activity"),
    ("name", "name"),
    ("network_id", "network_id"),
    ("os_version", "os_version"),
    ("serial", "serial"),
    ("status", "status"),
    ("last_hb", "last_hb"),
    ("wifi_strength", "wifi_strength"),
    ("last_update_on", "updated_at")
  ]

  datatype Network = Network(fields: seq<(string, Value)>)

  datatype SyncModule = SyncModule(fields: seq<(string, Value)>)

  /** The three device classes `load_devices` can produce. */
  datatype Device =
    | CameraXt(fields: seq<(string, Value)>)
    | CameraWhite(fields: seq<(string, Value)>)
    | DeviceSyncModule(fields: seq<(string, Value)>)

  function RecordKeys(table: Table): (ks: seq<string>)
    ensures |ks| == |table|
    ensures forall i :: 0 <= i < |table| ==> ks[i] == table[i].0
  {
    seq(|table|, i requires 0 <= i < |table| => table[i].0)
  }

  predicate Distinct(ks: seq<string>) {
    forall i, j :: 0 <= i < j < |ks| ==> ks[i] != ks[j]
  }

  /** Reading payload key `table[k].1` is the first read that raises, and it
      raises `e`. */
  ghost predicate RaisesAt(data: Value, table: Table, k: int, e: Exception) {
    && 0 <= k < |table|
    && Subscript(data, table[k].1) == Err(e)
    && forall j :: 0 <= j < k ==> Get(data, table[j].1).Some?
  }

  /** Builds a record dict: reads every payload key of `table` in order and
      stores it under its record key. The first missing key raises. */
  function Rename(data: Value, table: Table): (r: Result<seq<(string, Value)>>)
    ensures r.Ok? <==> forall i :: 0 <= i < |table| ==> Get(data, table[i].1).Some?
    ensures r.Ok? ==> |r.value| == |table|
    ensures r.Ok? ==> forall i :: 0 <= i < |table| ==>
                        r.value[i].0 == table[i].0 && Get(data, table[i].1) == Some(r.value[i].1)
    ensures r.Err? ==> exists k :: RaisesAt(data, table, k, r.error)
  {
    if |table| == 0 then Ok([])
    else
      match Subscript(data, table[0].1)
      case Err(e) =>
        assert RaisesAt(data, table, 0, e);
        Err(e)
      case Ok(v) =>
        match Rename(data, table[1..])
        case Err(e) =>
          assert exists k :: RaisesAt(data, table, k, e) by {
            var k :| RaisesAt(data, table[1..], k, e);
            assert RaisesAt(data, table, k + 1, e);
          }
          Err(e)
        case Ok(rest) =>
          Ok([(table[0].0, v)] + rest)
  }

  /** In a dict whose keys before position `i` differ from the key at `i`,
      looking that key up finds the value at `i`. */
  lemma {:induction false} LookupAt(fields: seq<(string, Value)>, i: int)
    requires 0 <= i < |fields|
    requires forall j :: 0 <= j < i ==> fields[j].0 != fields[i].0
    ensures Lookup(fields, fields[i].0) == Some(fields[i].1)
  {
    if i > 0 {
      LookupAt(fields[1..], i - 1);
    }
  }

  /** With distinct record keys, every record key of a built record holds
      the value of its payload key. */
  lemma RenameLookup(data: Value, table: Table)
    requires Distinct(RecordKeys(table))
    requires Rename(data, table).Ok?
    ensures forall i :: 0 <= i < |table| ==>
              Lookup(Rename(data, table).value, table[i].0) == Get(data, table[i].1)
  {
    var fields := Rename(data, table).value;
    forall i | 0 <= i < |table|
      ensures Lookup(fields, table[i].0) == Get(data, table[i].1)
    {
      assert RecordKeys(table)[i] == table[i].0;
      forall j | 0 <= j < i
        ensures fields[j].0 != fields[i].0
      {
        assert RecordKeys(table)[j] == table[j].0;
      }
      LookupAt(fields, i);
    }
  }

  lemma TablesDistinct()
    ensures Distinct(RecordKeys(NETWORK_FIELDS))
    ensures Distinct(RecordKeys(CAMERA_FIELDS))
    ensures Distinct(RecordKeys(DEVICE_SYNC_MODULE_FIELDS))
    ensures Distinct(RecordKeys(SYNC_MODULE_FIELDS))
  {
  }

  /** Every payload key the table reads is present. */
  predicate HasAll(data: Value, table: Table) {
    forall i :: 0 <= i < |table| ==> Get(data, table[i].1).Some?
  }

  /** `fields` is the record dict built from `data`: its keys are the table's
      record keys in order, and each holds the value of its payload key. */
  predicate Built(data: Value, table: Table, fields: seq<(string, Value)>) {
    Keys(fields) == RecordKeys(table) && Renamed(data, table, fields)
  }

  predicate Renamed(data: Value, table: Table, fields: seq<(string, Value)>) {
    forall i :: 0 <= i < |table| ==> Lookup(fields, table[i].0) == Get(data, table[i].1)
  }

  lemma BuiltAt(data: Value, table: Table, fields: seq<(string, Value)>, i: int)
    requires Renamed(data, table, fields)
    requires 0 <= i < |table|
    ensures Lookup(fields, table[i].0) == Get(data, table[i].1)
  {
  }

  /** Builds the record dict for a table with distinct record keys. */
  function Build(data: Value, table: Table): (r: Result<seq<(string, Value)>>)
    requires Distinct(RecordKeys(table))
    ensures r.Ok? <==> HasAll(data, table)
    ensures r.Ok? ==> Built(data, table, r.value)
    ensures r.Err? ==> exists k :: RaisesAt(data, table, k, r.error)
  {
    var fields :- Rename(data, table);
    RenameLookup(data, table);
    Ok(fields)
  }

  /** `BlinkNetwork(data)`. */
  function NetworkFrom(data: Value): (r: Result<Network>)
    ensures r.Ok? <==> HasAll(data, NETWORK_FIELDS)
    ensures r.Ok? ==> Built(data, NETWORK_FIELDS, r.value.fields)
    ensures r.Err? ==> exists k :: RaisesAt(data, NETWORK_FIELDS, k, r.error)
  {
    TablesDistinct();
    var fields :- Build(data, NETWORK_FIELDS);
    Ok(Network(fields))
  }

  /** `BlinkSyncModule(data)`. */
  function SyncModuleFrom(data: Value): (r: Result<SyncModule>)
    ensures r.Ok? <==> HasAll(data, SYNC_MODULE_FIELDS)
    ensures r.Ok? ==> Built(data, SYNC_MODULE_FIELDS, r.value.fields)
    ensures r.Err? ==> exists k :: RaisesAt(data, SYNC_MODULE_FIELDS, k, r.error)
  {
    TablesDistinct();
    var fields :- Build(data, SYNC_MODULE_FIELDS);
    Ok(SyncModule(fields))
  }

  /** The dict both camera classes build from `data`. */
  function CameraFrom(data: Value): (r: Result<seq<(string, Value)>>)
    ensures r.Ok? <==> HasAll(data, CAMERA_FIELDS)
    ensures r.Ok? ==> Built(data, CAMERA_FIELDS, r.value)
    ensures r.Err? ==> exists k :: RaisesAt(data, CAMERA_FIELDS, k, r.error)
  {
    TablesDistinct();
    Build(data, CAMERA_FIELDS)
  }

  /** `BlinkDeviceSyncModule(data)`. */
  function DeviceSyncModuleFrom(data: Value): (r: Result<Device>)
    ensures r.Ok? <==> HasAll(data, DEVICE_SYNC_MODULE_FIELDS)
    ensures r.Ok? ==> r.value.DeviceSyncModule? && Built(data, DEVICE_SYNC_MODULE_FIELDS, r.value.fields)
    ensures r.Err? ==> exists k :: RaisesAt(data, DEVICE_SYNC_MODULE_FIELDS, k, r.error)
  {
    TablesDistinct();
    var fields :- Build(data, DEVICE_SYNC_MODULE_FIELDS);
    Ok(DeviceSyncModule(fields))
  }

  /** The renamings of the camera record, spelled out: `state` is `active`,
      `model` is `type`, `id` is `device_id`, `temperature` is `temp` and
      `last_update_on` is `updated_at`. */
  lemma CameraRenames(data: Value, c: seq<(string, Value)>)
    requires Renamed(data, CAMERA_FIELDS, c)
    ensures Lookup(c, "state") == Get(data, "active")
    ensures Lookup(c, "model") == Get(data, "type")
    ensures Lookup(c, "id") == Get(data, "device_id")
    ensures Lookup(c, "temperature") == Get(data, "temp")
    ensures Lookup(c, "last_update_on") == Get(data, "updated_at")
  {
    var t := CAMERA_FIELDS;
    assert t[0] == ("state", "active");
    assert t[3] == ("model", "type");
    assert t[4] == ("id", "device_id");
    assert t[7] == ("temperature", "temp");
    assert t[13] == ("last_update_on", "updated_at");
    BuiltAt(data, t, c, 0);
    BuiltAt(data, t, c, 3);
    BuiltAt(data, t, c, 4);
    BuiltAt(data, t, c, 7);
    BuiltAt(data, t, c, 13);
  }

  /** The first key a camera reads is `active`: a payload without it fails
      with KeyError("active") when it is an object, TypeError otherwise. */
  lemma CameraMissingActive(data: Value)
    requires Get(data, "active").None?
    ensures CameraFrom(data) == Err(if data.Object? then KeyError("active") else TypeError)
  {
    assert CAMERA_FIELDS[0].1 == "active";
    assert !HasAll(data, CAMERA_FIELDS);
    var k :| RaisesAt(data, CAMERA_FIELDS, k, CameraFrom(data).error);
    if k > 0 {
      assert false;
    }
  }
}

=== FILE: restapi.dfy ===
/** `BlinkRestApi`: the authenticated client. Modelled here are its
    construction, the header it sends with every call (`_get_header`) and
    the region key it puts into every URL (`_region`). */
module RestApi {
  import opened Json
  import Auth
  import RateLimit

  /** `_DEFAULT_HEADER`. */
  const DEFAULT_HEADER: seq<(string, Value)> := [("Content-Type", Str("application/json"))]

  datatype RestApi = RestApi(auth: Auth.AuthService, header: Value, rates: RateLimit.Rates)

  /** `BlinkRestApi(user_id, password, **kwargs)` constructed at `now`: a
      truthy `client` keyword is handed on to the auth service, which ignores
      it (see `Auth.SettingsAsWritten`), and the `header` keyword replaces the
      default header. */
  function New(userId: string, password: string, kwargs: seq<(string, Value)>, now: int): (api: RestApi)
    ensures api.auth.token == Null && api.auth.region == Null
    ensures api.auth.email == userId && api.auth.password == password
    ensures api.auth.settings == Auth.SettingsFrom([])
    ensures api.auth.settings.client == Str(Auth.CLIENT)
    ensures Lookup(kwargs, "header").Some? ==> api.header == Lookup(kwargs, "header").value
    ensures Lookup(kwargs, "header").None? ==> api.header == Object(DEFAULT_HEADER)
    ensures api.rates == RateLimit.Rates([], RateLimit.MAXIMUM_CALLS_PER_MINUTE)
  {
    var client := Auth.KwargOr(kwargs, "client", Null);
    var auth := if Truthy(client) then Auth.New(userId, password, [("client", client)], now)
                else Auth.New(userId, password, [], now);
    RestApi(auth, Auth.KwargOr(kwargs, "header", Object(DEFAULT_HEADER)), RateLimit.Initial())
  }

  /** As written, a `client` keyword never reaches the login: the first
      login of a new client sends the default client specifier. */
  lemma ClientKeywordNotSent(userId: string, password: string, kwargs: seq<(string, Value)>, now: int, response: Value)
    ensures var api := New(userId, password, kwargs, now);
            var sent := Auth.Renew(api.auth, now, response).sent;
            && sent.Some?
            && Get(sent.value, "client_specifier") == Some(Str(Auth.CLIENT))
            && Get(sent.value, "email") == Some(Str(userId))
  {
  }

  /** `_get_header()` at time `now`: copies the stored header, asks the auth
      service for its token (renewing it if stale, the login answered by
      `response`) and adds `TOKEN_AUTH` and `HOST`. A stored header that is
      a list copies but cannot be updated; any other non-dict cannot even be
      copied. */
  function GetHeader(api: RestApi, now: int, response: Value): (r: Step<RestApi, Value>)
    // the stored header and the rates are never changed
    ensures r.state.header == api.header && r.state.rates == api.rates
    // the token is asked for once the header has been copied
    ensures (api.header.Object? || api.header.Array?) ==>
              r.state.auth == Auth.Token(api.auth, now, response).state
    ensures !(api.header.Object? || api.header.Array?) ==> r == Step(api, Err(AttributeError))
    ensures r.outcome.Ok? <==> api.header.Object? && Auth.Token(api.auth, now, response).outcome.Ok?
    // a failing `token()` raises its own error; a list header then fails to update
    ensures (api.header.Object? || api.header.Array?) && Auth.Token(api.auth, now, response).outcome.Err? ==>
              r.outcome == Err(Auth.Token(api.auth, now, response).outcome.error)
    ensures api.header.Array? && Auth.Token(api.auth, now, response).outcome.Ok? ==> r.outcome == Err(AttributeError)
    // the header is the stored one plus the token and the host
    ensures r.outcome.Ok? ==>
              && r.outcome.value.Object?
              && Lookup(r.outcome.value.fields, "TOKEN_AUTH") == Some(r.state.auth.token)
              && Lookup(r.outcome.value.fields, "HOST") == Some(Str(Auth.FQDN))
              && (forall k :: k != "TOKEN_AUTH" && k != "HOST" ==>
                                Lookup(r.outcome.value.fields, k) == Lookup(api.header.fields, k))
    // and keeps the stored keys first, in their order
    ensures r.outcome.Ok? ==>
              var keys := Keys(r.outcome.value.fields);
              && |Keys(api.header.fields)| <= |keys| <= |Keys(api.header.fields)| + 2
              && keys[..|Keys(api.header.fields)|] == Keys(api.header.fields)
  {
    if !(api.header.Object? || api.header.Array?) then Step(api, Err(AttributeError))
    else
      var t := Auth.Token(api.auth, now, response);
      var api' := api.(auth := t.state);
      if t.outcome.Err? then Step(api', Err(t.outcome.error))
      else if api.header.Array? then Step(api', Err(AttributeError))
      else
        var base := api.header.fields;
        var token := t.outcome.value;
        var withToken := Update(base, "TOKEN_AUTH", token);
        UpdateLookup(base, "TOKEN_AUTH", token);
        UpdateLookup(withToken, "HOST", Str(Auth.FQDN));
        UpdateKeys(base, "TOKEN_AUTH", token);
        UpdateKeys(withToken, "HOST", Str(Auth.FQDN));
        Step(api', Ok(Object(Update(withToken, "HOST", Str(Auth.FQDN)))))
  }

  /** The `_region` property at time `now`: asks the auth service for its
      region (renewing if stale) and returns the region mapping's first key;
      an empty mapping raises StopIteration, a non-dict AttributeError. */
  function RegionKey(api: RestApi, now: int, response: Value): (r: Step<RestApi, string>)
    ensures r.state == api.(auth := Auth.Renew(api.auth, now, response).state)
    // a failing renewal raises its own error
    ensures Auth.Renew(api.auth, now, response).outcome.Err? ==>
              r.outcome == Err(Auth.Renew(api.auth, now, response).outcome.error)
    ensures r.outcome.Ok? <==>
              && Auth.Renew(api.auth, now, response).outcome.Ok?
              && r.state.auth.region.Object?
              && |r.state.auth.region.fields| > 0
    // the key is the first key of the mapping, and a key of it
    ensures r.outcome.Ok? ==>
              && r.outcome.value == r.state.auth.region.fields[0].0
              && Lookup(r.state.auth.region.fields, r.outcome.value).Some?
    ensures Auth.Renew(api.auth, now, response).outcome.Ok? && r.state.auth.region == Object([]) ==>
              r.outcome == Err(StopIteration)
    ensures Auth.Renew(api.auth, now, response).outcome.Ok? && !r.state.auth.region.Object? ==>
              r.outcome == Err(AttributeError)
  {
    var rg := Auth.Region(api.auth, now, response);
    var api' := api.(auth := rg.state);
    match rg.outcome
    case Err(e) => Step(api', Err(e))
    case Ok(region) =>
      (match region
       case Object(fields) =>
         if |fields| == 0 then Step(api', Err(StopIteration))
         else Step(api', Ok(fields[0].0))
       case _ => Step(api', Err(AttributeError)))
  }

  /** After a stale token is renewed by a login whose region mapping is not
      empty, the region key is the first key of that login's mapping. */
  lemma RegionKeyAfterLogin(api: RestApi, now: int, response: Value, fields: seq<(string, Value)>)
    requires Auth.Stale(api.auth, now)
    requires Auth.Renew(api.auth, now, response).outcome.Ok?
    requires Get(response, "region") == Some(Object(fields)) && |fields| > 0
    ensures RegionKey(api, now, response).outcome == Ok(fields[0].0)
  {
  }
}
